=== FILE: README.md ===
# Identity and change-history core, modelled in Dafny

This project models the two pieces of logic in the backend's controllers:

- **Registration and login** (`AuthController`). The first account registered while no user exists becomes "Admin", and every later one becomes "User". Login runs its checks in a fixed order: unknown email, inactive account, active lockout, then password. A wrong password counts up a failure counter. The fifth consecutive failure locks the account for five minutes and resets the counter. A correct password clears both.
- **Change history and revert** (`UserController`). Before every edit of a user's fields, the edit records two things: a `UserVersion` holding the fields as they were, and an `AuditLog` entry. A revert copies a recorded version back onto the live user, and the revert is itself recorded. The history and the audit log are read in pages, newest first.

The store is a value with four parts: a map from user id to `User`, an append-only sequence of `UserVersion`, an append-only sequence of `AuditLog`, and the next identity the Users table will hand out. Every operation is a pure function from (store, clock, request) to a reply and the next store.

The hash, the random keys, the clock and the acting user's identity are parameters:
- The keyed hash (HMAC-SHA512) is an arbitrary function `Hasher`.
- Each fresh random key (salt) is an argument.
- The clock is an integer count of seconds.
- The acting user's email (taken from the token's claims) is an argument.

Files, one module each:
- `wrappers.dfy`: `Option`.
- `entities.dfy`: `User`, `UserVersion`, `AuditLog`, the seven editable fields as `Profile`, and `Blank` (the defaults of a new `User`).
- `passwords.dfy`: credential creation and verification.
- `lockout.dfy`: the lockout constants, an abstract lockout state, and the policy's reference transition `Next`.
- `storage.dfy`: the store, lookups, the change recorder, and the store invariants.
- `auth.dfy`: `Register` and `Login`.
- `users.dfy`: the editing operations.
- `paging.dfy`: the paginated reads.

Invariants proved for the operations:
- `WellFormed`: ids match their keys, and the tables are numbered in order. It holds of the empty store and every operation keeps it. The operations that need it take it as a precondition.
- `CountersBounded`: every failure counter is in 0..4. Every operation keeps it.
- `EmailsUnique`: no two users share an email. Every operation except `RevertUser` keeps it.

In these details the model follows the code, which a reader might not expect:
- Roles are free strings, not a closed enumeration, because `CreateUser` stores whatever role the request names.
- The "minutes remaining" of a lockout is the minutes component of the remaining time span: whole minutes, rounded down, modulo an hour. It is not a ceiling.
- Only updates, profile updates and reverts record a version. Registration, creation, deletion, password changes and logins record none. Password changes and logins also write no audit entry.
- The REVERT version copies the restored version, not the fields the user had just before the revert.
- A missing user and a missing version both answer "not found".

## Model

| member | source | states |
|---|---|---|
| `Passwords.CreatePasswordHash` | Backend/Controllers/AuthController.cs:110-122 | the fresh key becomes the salt, and the password verifies against the credential made for it; verification (`Passwords.VerifyPassword`, also the current-password check of a password change) recomputes the keyed hash with the stored salt and compares it with the stored hash |
| `Passwords.OnlyTheHashedPasswordVerifies` | Backend/Controllers/AuthController.cs:117-122 | under a collision-free hash, a credential accepts its own password and no other |
| `Lockout.BlankStartsUnlocked` | Backend/Entities/User.cs:10-18 | a new user has no failures and no lockout (so it starts unlocked), has role "User", is active, and has no names, address or birth date |
| `Lockout.MinutesComponent` | Backend/Controllers/AuthController.cs:79-80 | the reported minutes are the minutes of the hour: the span less its whole hours and those minutes leaves less than one minute; they lie in 0..59 for a positive span and are at most 5 for a span no longer than the lockout |
| `Storage.FindByEmail` | Backend/Controllers/AuthController.cs:68-70 | finds a user exactly when some user holds the email; the user found holds it and has the lowest such id |
| `Storage.FindVersion` | Backend/Controllers/UserController.cs:172-176 | finds a version exactly when one with that owner and that id is stored |
| `Storage.RecordBeforeChange` | Backend/Controllers/UserController.cs:99-122 | appends exactly one version holding the user's fields as they are, and one entry whose payload is the user as it is; users are untouched |
| `Auth.Register` | Backend/Controllers/AuthController.cs:30-63 | an email already held is refused with the store unchanged; otherwise exactly one user is added under a fresh id, with role "Admin" iff no user exists and "User" otherwise, active, with no failures and no lockout, holding the password; the next identity moves past it; exactly one REGISTER entry by the new email is appended; versions are unchanged; the invariants are kept |
| `Auth.Login` | Backend/Controllers/AuthController.cs:66-108 | an unknown email and an inactive account change nothing; an active lockout is refused with the store unchanged, reporting exactly the minutes component of the remaining time (in 0..59), and only then; success means active, not locked and the password verifies, and it resets the counter and clears the lockout; the lockout reply sets a five-minute lockout with the counter at 0; a wrong password on an active, unlocked account is always answered with the lockout reply when it brings the counter to 5 and with invalid credentials otherwise, and the latter adds one to the counter; only that user's counter and lockout can change; no version or entry is written |
| `Auth.LoginFollowsPolicy` | Backend/Controllers/AuthController.cs:76-104 | on an active account, the login's new lockout state and its reply are those of the reference policy `Next` for a correct or wrong password |
| `Auth.RegisterThenLogin` | Backend/Controllers/AuthController.cs:30-107 | an account logs in with the password it was registered with, and gets its id, email and assigned role |
| `Auth.WrongPasswordsAccumulate` | Backend/Controllers/AuthController.cs:84-98 | wrong passwords below the threshold, at instants when the account is not locked (never locked, or an earlier lockout has passed), only raise the counter by one each; the lookup still finds the account |
| `Auth.FifthFailureLocks` | Backend/Controllers/AuthController.cs:88-95 | on an account not locked now, the failure that brings the counter to 5 locks it until now + 5 minutes and resets the counter to 0, also when an earlier lockout has passed |
| `Auth.LockedRefuses` | Backend/Controllers/AuthController.cs:77-81 | while a lockout lasts, any password is refused and the store stays as it is |
| `Auth.ExpiredLockoutLetsIn` | Backend/Controllers/AuthController.cs:77-104 | once a lockout has passed, the right password logs in, the counter is 0 and the lockout is cleared |
| `Auth.FiveFailuresLock` | Backend/Controllers/AuthController.cs:77-104 | five wrong passwords lock an account that is not locked when they are made, including one whose earlier lockout has passed; a sixth attempt within five minutes is refused even with the right password and changes nothing; after the lockout the right password succeeds and resets the counter |
| `Users.CreateUser` | Backend/Controllers/UserController.cs:48-78 | an email already held is refused with the store unchanged; otherwise exactly one active user with no failures and no lockout, and with the requested email, role and password, is added under a fresh id; the next identity moves past it; also appended is exactly one INSERT entry by the acting admin; versions are unchanged |
| `Users.UpdateUser` | Backend/Controllers/UserController.cs:82-137 | a missing user is not found; when email, role and active flag all equal the request nothing changes, even if a password is given; an email held by another user is refused with nothing changed; otherwise exactly one version of the prior fields and one UPDATE entry are appended, email, role and active flag take the request's values, names, address, birth date and lockout are kept, and the password changes only when a non-blank one is given; the next identity is kept |
| `Users.UpdateUserKeepsInvariants` | Backend/Controllers/UserController.cs:95-133 | an update keeps the store well formed, emails unique and counters bounded |
| `Users.DeleteUser` | Backend/Controllers/UserController.cs:143-163 | a missing id changes nothing; otherwise only that user is removed, its versions stay, the next identity is kept (so its id is never handed out again), and one DELETE entry holding the removed user is appended |
| `Users.RevertUser` | Backend/Controllers/UserController.cs:167-214 | nothing changes unless the user exists and a version with that id belongs to it; on success the user's seven fields equal the version's, its id, credential and lockout are kept, other users and the next identity are untouched, and exactly one copying version and one REVERT entry are appended; the entry holds the restored version together with its user as it was before the revert |
| `Users.RevertToLatest` | Backend/Controllers/UserController.cs:172-210 | in a well-formed store, the latest version of a user can always be reverted to, and restoring it changes only that user's fields |
| `Users.UpdateThenRevertRestores` | Backend/Controllers/UserController.cs:99-210 | reverting to the version an update recorded gives back the fields from before the update, and the very same user when no new password was set |
| `Users.ProfileUpdateThenRevertRestores` | Backend/Controllers/UserController.cs:178-293 | reverting to the version a profile update recorded gives back exactly the users from before the update |
| `Users.RevertCanDuplicateEmail` | Backend/Controllers/UserController.cs:204 | a revert makes no email check, so it can leave two users with one email |
| `Users.UpdateProfile` | Backend/Controllers/UserController.cs:241-297 | no change to the five profile fields means nothing changes; an email held by another user is refused with nothing changed; otherwise one version of the prior fields and one UPDATE entry are appended, and only email, names, address and birth date change, while role, active flag, credential, lockout and the next identity are kept |
| `Users.ChangePassword` | Backend/Controllers/UserController.cs:311-338 | a missing user is not found; when both passwords are given, a wrong current password is refused with nothing changed, and otherwise only the salt and hash change and the new password verifies; when either is missing or empty, the reply is success and nothing changes; no version or entry is ever written |
| `Paging.SortDesc` | Backend/Controllers/UserController.cs:350 | the sorted sequence is ordered newest first and is a permutation of its input |
| `Paging.VersionsOf` | Backend/Controllers/UserController.cs:344-349 | keeps every occurrence of the user's versions and no other version |
| `Paging.TotalPages` | Backend/Controllers/UserController.cs:360 | the page count is the ceiling of total / size: the pages hold everything, and one page fewer would not |
| `Paging.SkipTake` | Backend/Controllers/UserController.cs:351-352 | skips the requested count (none if negative) and takes at most the page size, in order |
| `Paging.GetUserHistory` | Backend/Controllers/UserController.cs:342-365 | the total counts the user's versions and the page count is its ceiling over 5; the page holds at most 5 of the user's versions, newest first, starting (page − 1)·5 into the newest-first history |
| `Paging.HistoryPagesCoverAll` | Backend/Controllers/UserController.cs:348-353 | version i of the newest-first history is item i mod 5 of page ⌊i/5⌋ + 1 |
| `Paging.HistoryPagesPastTheEndAreEmpty` | Backend/Controllers/UserController.cs:351-360 | a page beyond the page count holds no version |
| `Paging.GetAuditLogs` | Backend/Controllers/UserController.cs:369-393 | a page below 1 is refused; otherwise the total is the log's size and the page holds at most 7 entries of the log, newest first, starting (page − 1)·7 into it |
| `Paging.AuditPagesCoverAll` | Backend/Controllers/UserController.cs:380-384 | entry i of the newest-first log is item i mod 7 of page ⌊i/7⌋ + 1 |
| `Paging.AuditPagesPastTheEndAreEmpty` | Backend/Controllers/UserController.cs:380-384 | an audit page beyond the page count holds no entry |
| `Paging.Wrap32` | Backend/Controllers/UserController.cs:382 | 32-bit wrap-around: the result is a 32-bit value congruent to its input, and values already in range are unchanged |
| `Paging.SkipAsWritten` | Backend/Controllers/UserController.cs:382 | the skip the code computes is the 32-bit value congruent to (page − 1)·size modulo 2^32, which is C#'s unchecked product; it equals (page − 1)·size whenever that fits in 32 bits |
| `Paging.GetUserHistoryAsWritten` | Backend/Controllers/UserController.cs:342-365 | the history page as the code computes it, with the 32-bit skip; it has the same total, page number, page size and ceiling page count as the intended read; it equals `GetUserHistory` when the skip does not overflow |
| `Paging.GetAuditLogsAsWritten` | Backend/Controllers/UserController.cs:369-393 | the audit page as the code computes it, with the 32-bit skip; a page below 1 is refused, and otherwise it reports the log's total, the page number and the page size; it equals `GetAuditLogs` when the skip does not overflow |
| `Paging.HistorySkipWrapsAround` | Backend/Controllers/UserController.cs:351 | with 5 or more versions, page 858993461 is past the last page and empty as intended, but the code's page shows the fifth-newest version and those after it |
| `Paging.AuditSkipWrapsAround` | Backend/Controllers/UserController.cs:382 | with 4 or more entries, page 613566758 is past the last page and empty as intended, but the code's page shows the fourth-newest entry and those after it |

## Left out

- `GenerateJwtToken` (Backend/Controllers/AuthController.cs:124-146) is left out. It only passes configuration values to a token library. A successful login returns the identity (id, email, role) the token would carry.
- HMAC-SHA512 and random key generation are not modelled. The hash is an arbitrary `Hasher` function and each fresh key is an argument. The timing of the byte comparison is not modelled.
- Audit payloads are the value that gets serialized, not a JSON string. The REGISTER and INSERT payloads are serialized before the store assigns an identity, so their id is 0.
- Persistence, `SaveChangesAsync` and async execution are not modelled. Each operation is one atomic step on the store value.
- Database cascade rules are not modelled. `DeleteUser` leaves the user's versions in place, as the controller code does.
- Comparisons follow Dafny string equality. A case-insensitive database collation on email comparisons is not modelled.
- `[Authorize]` roles, routing, `ModelState` and the DTO validation attributes are left out. These include the minimum password length, the email format and the password confirmation, all enforced by the framework.
- `ClaimsPrincipalExtensions.GetUserId` is left out. The acting user's id and email are arguments.
- Concurrent requests for the same user are not modelled. The code's read-modify-write is last-writer-wins.
- The code mixes local time and UTC. The model uses one integer clock counted in seconds.
- `GetUsers`, `GetUser`, `GetProfile` and `GetUserStatistics` are left out. They are plain reads with no logic of their own.
- Users.CreateUser requires a password when the email is free. In that case the code hashes the request's password without a null check and would throw on a missing one. A request with no password for an email already held is modelled: it is refused before any hashing.
- Users.UpdateProfile requires the user to exist, because the code reads the user's fields before its null check and would throw on a missing user.
- Storage.FindByEmail returns the lowest-id holder. The database does not fix which row the code's `FirstOrDefault` returns when two users share an email, which only a revert can cause.
- Paging.SkipTake treats a negative skip as zero, as the in-memory query operator does. A SQL provider may instead raise an error for a negative offset. A negative skip arises for history page 0 or below. It also arises on either read whenever the 32-bit skip wraps negative, for example on audit page 306783380, whose skip wraps to −2147483643. There `Paging.GetAuditLogsAsWritten` shows the first page, where a SQL provider would raise an error.
- The query-string default `page = 1`, used when a request gives no page, is not modelled (Backend/Controllers/UserController.cs:342 and :369). Every read takes its page number as an argument.
- Paging.SortDesc keeps equal timestamps in stored order. A database does not promise any order among ties.
- The failure counter is an unbounded integer. The 32-bit wrap of `FailedLoginAttempts++` cannot be reached, because `CountersBounded` keeps every counter in 0..4.

## Findings

| source | as written | input that shows it | evidently intended | confidence | as-written member | corrected member |
|---|---|---|---|---|---|---|
| Backend/Controllers/UserController.cs:351 | `(page - 1) * 5` is computed in 32-bit arithmetic and wraps | page = 858993461 with 5 or more versions: the skip wraps to 4 and the page shows the fifth-newest version onward | a page past the last one is empty | medium; not executed | `Paging.HistorySkipWrapsAround` | `Paging.HistoryPagesPastTheEndAreEmpty` |
| Backend/Controllers/UserController.cs:382 | `(page - 1) * pageSize` is computed in 32-bit arithmetic and wraps | page = 613566758 with 4 or more entries: the skip wraps to 3 and the page shows the fourth-newest entry onward | a page past the last one is empty | medium; not executed | `Paging.AuditSkipWrapsAround` | `Paging.AuditPagesPastTheEndAreEmpty` |

The code as written is modelled by `Paging.GetUserHistoryAsWritten` and `Paging.GetAuditLogsAsWritten`. The corrected `Paging.GetUserHistory` and `Paging.GetAuditLogs` compute the skip with unbounded integers.

=== FILE: auth.dfy ===
/**
 * Registration and login: the first account becomes the administrator, and
 * login runs its checks in a fixed order (unknown email, inactive account,
 * active lockout, password) while driving the lockout policy.
 */
module Auth {
  import opened Wrappers
  import opened Entities
  import opened Passwords
  import opened Lockout
  import opened Storage

  datatype RegisterReply = NewAccount(id: int) | UserExists

  /** What a successful login hands to token issuance. */
  datatype Identity = Identity(id: int, email: string, role: string)

  /**
   * Login outcomes. `InvalidCredentials` is the 401 reply shared by an unknown
   * email and a wrong password; `AccountLocked` reports the minutes left;
   * `LockedAfterFailures` is the reply to the failure that starts a lockout.
   */
  datatype LoginReply =
    | Authenticated(identity: Identity)
    | InvalidCredentials
    | AccountInactive
    | AccountLocked(remainingMinutes: int)
    | LockedAfterFailures

  /** The user differs from the original at most in its failure counter and lockout expiry. */
  predicate SameButLockout(u: User, u': User) {
    u' == u.(failedLoginAttempts := u'.failedLoginAttempts, lockoutEnd := u'.lockoutEnd)
  }

  /**
   * Registers an account. The payload of the REGISTER entry is the user as
   * serialized before the store assigns its identity, so its id is 0.
   */
  function Register(s: Store, now: Instant, email: string, password: string, salt: Bytes, hmac: Hasher)
    : (r: Transition<RegisterReply>)
    requires WellFormed(s)
    ensures r.reply == UserExists <==> EmailTaken(s, email)
    ensures r.reply == UserExists ==> r.next == s
    ensures r.reply.NewAccount? ==>
      && var id := r.reply.id;
      && id == s.nextUserId && id !in s.users
      && r.next.nextUserId == id + 1
      && r.next.users.Keys == s.users.Keys + {id}
      && (forall other :: other in s.users ==> r.next.users[other] == s.users[other])
      && var u := r.next.users[id];
      && u.id == id && u.email == email
      && (u.role == AdminRole <==> |s.users| == 0)
      && (u.role == UserRole <==> |s.users| != 0)
      && u.isActive
      && u.failedLoginAttempts == 0 && u.lockoutEnd == None
      && StateOf(u, now) == Unlocked
      && VerifyPassword(password, u.passwordHash, u.passwordSalt, hmac)
      && u.passwordSalt == salt
      && u.firstName == None && u.lastName == None && u.address == None && u.dateOfBirth == None
      && r.next.versions == s.versions
      && Logged(s, r.next, Registered, email, now, OfUser(u.(id := 0)))
    ensures WellFormed(r.next)
    ensures EmailsUnique(s) ==> EmailsUnique(r.next)
    ensures CountersBounded(s) ==> CountersBounded(r.next)
  {
    if EmailTaken(s, email) then Transition(UserExists, s)
    else
      var credential := CreatePasswordHash(password, salt, hmac);
      var isFirstUser := |s.users| == 0;
      var role := if isFirstUser then AdminRole else UserRole;
      var user := Blank().(email := email, passwordHash := credential.hash,
                           passwordSalt := credential.salt, role := role, isActive := true);
      var logged := AppendLog(s, Registered, user.email, now, OfUser(user));
      var id := s.nextUserId;
      Transition(NewAccount(id), logged.(users := logged.users[id := user.(id := id)], nextUserId := id + 1))
  }

  /** Login, with the user's lockout fields updated as the outcome demands. */
  function Login(s: Store, now: Instant, email: string, password: string, hmac: Hasher)
    : (r: Transition<LoginReply>)
    ensures r.next.versions == s.versions && r.next.logs == s.logs && r.next.nextUserId == s.nextUserId
    ensures r.next.users.Keys == s.users.Keys
    ensures FindByEmail(s, email).None? ==> r.reply == InvalidCredentials && r.next == s
    ensures FindByEmail(s, email).Some? ==>
      && var id := FindByEmail(s, email).value;
      && var u := s.users[id];
      && var u' := r.next.users[id];
      && (forall other :: other in s.users && other != id ==> r.next.users[other] == s.users[other])
      && SameButLockout(u, u')
      && (!u.isActive ==> r.reply == AccountInactive && r.next == s)
      && (u.isActive && StateOf(u, now).Locked? ==>
            r.reply.AccountLocked? && 0 <= r.reply.remainingMinutes < 60 && r.next == s)
      && (r.reply.Authenticated? <==>
            u.isActive && !StateOf(u, now).Locked? && VerifyPassword(password, u.passwordHash, u.passwordSalt, hmac))
      && (r.reply.Authenticated? ==>
            r.reply.identity == Identity(u.id, u.email, u.role)
            && u'.failedLoginAttempts == 0 && u'.lockoutEnd == None)
      && (r.reply == LockedAfterFailures ==>
            u'.failedLoginAttempts == 0 && u'.lockoutEnd == Some(now + LockoutSeconds))
      && (r.reply == InvalidCredentials ==>
            u'.failedLoginAttempts == u.failedLoginAttempts + 1 < MaxFailedAttempts
            && u'.lockoutEnd == u.lockoutEnd)
      && (u.isActive && !StateOf(u, now).Locked? && !VerifyPassword(password, u.passwordHash, u.passwordSalt, hmac) ==>
            r.reply == (if u.failedLoginAttempts + 1 >= MaxFailedAttempts then LockedAfterFailures
                        else InvalidCredentials))
      && (r.reply.AccountLocked? ==>
            u.isActive && StateOf(u, now).Locked?
            && r.reply.remainingMinutes == MinutesComponent(u.lockoutEnd.value - now))
    ensures WellFormed(s) ==> WellFormed(r.next)
    ensures EmailsUnique(s) ==> EmailsUnique(r.next)
    ensures CountersBounded(s) ==> CountersBounded(r.next)
  {
    match FindByEmail(s, email)
    case None => Transition(InvalidCredentials, s)
    case Some(id) =>
      var user := s.users[id];
      if !user.isActive then Transition(AccountInactive, s)
      else if user.lockoutEnd.Some? && user.lockoutEnd.value > now then
        Transition(AccountLocked(MinutesComponent(user.lockoutEnd.value - now)), s)
      else if !VerifyPassword(password, user.passwordHash, user.passwordSalt, hmac) then
        var failed := user.failedLoginAttempts + 1;
        if failed >= MaxFailedAttempts then
          var locked := user.(lockoutEnd := Some(now + LockoutSeconds), failedLoginAttempts := 0);
          Transition(LockedAfterFailures, s.(users := s.users[id := locked]))
        else
          Transition(InvalidCredentials, s.(users := s.users[id := user.(failedLoginAttempts := failed)]))
      else
        var reset := user.(failedLoginAttempts := 0, lockoutEnd := None);
        Transition(Authenticated(Identity(user.id, user.email, user.role)), s.(users := s.users[id := reset]))
  }

  /** The reply a login gives, stated from the policy's abstract state before the attempt. */
  function PolicyReply(st: LockState, a: Attempt, now: Instant, u: User): LoginReply {
    match st
    case Locked(until) => AccountLocked(MinutesComponent(until - now))
    case _ =>
      match Next(st, a, now)
      case Unlocked => Authenticated(Identity(u.id, u.email, u.role))
      case Locked(_) => LockedAfterFailures
      case Accumulating(_) => InvalidCredentials
  }

  function AttemptOf(u: User, password: string, hmac: Hasher): Attempt {
    if VerifyPassword(password, u.passwordHash, u.passwordSalt, hmac) then CorrectPassword else WrongPassword
  }

  /**
   * On an active account, a login moves the account exactly as the lockout
   * policy prescribes and answers as the policy's state demands.
   */
  lemma LoginFollowsPolicy(s: Store, now: Instant, email: string, password: string, hmac: Hasher)
    requires CountersBounded(s)
    requires FindByEmail(s, email).Some?
    requires s.users[FindByEmail(s, email).value].isActive
    ensures var id := FindByEmail(s, email).value;
            var u := s.users[id];
            var r := Login(s, now, email, password, hmac);
            && StateOf(r.next.users[id], now) == Next(StateOf(u, now), AttemptOf(u, password, hmac), now)
            && r.reply == PolicyReply(StateOf(u, now), AttemptOf(u, password, hmac), now, u)
  {
    var id := FindByEmail(s, email).value;
    var u := s.users[id];
    var r := Login(s, now, email, password, hmac);
    var st := StateOf(u, now);
    if !st.Locked? {
      assert st.Accumulating? ==> st.failures == u.failedLoginAttempts;
      assert !st.Accumulating? ==> u.failedLoginAttempts == 0;
      if AttemptOf(u, password, hmac) == WrongPassword {
        if u.failedLoginAttempts + 1 >= MaxFailedAttempts {
          assert r.next.users[id].lockoutEnd == Some(now + LockoutSeconds);
        } else {
          assert r.next.users[id].failedLoginAttempts == u.failedLoginAttempts + 1;
        }
      } else {
        assert r.next.users[id].lockoutEnd == None;
      }
    }
  }

  /** A freshly registered account logs in with the password it was registered with. */
  lemma RegisterThenLogin(s: Store, now: Instant, later: Instant, email: string, password: string,
                          salt: Bytes, hmac: Hasher)
    requires WellFormed(s)
    requires !EmailTaken(s, email)
    ensures var reg := Register(s, now, email, password, salt, hmac);
            && reg.reply.NewAccount?
            && Login(reg.next, later, email, password, hmac).reply
               == Authenticated(Identity(reg.reply.id, email, if |s.users| == 0 then AdminRole else UserRole))
  {
    var reg := Register(s, now, email, password, salt, hmac);
    var id := reg.reply.id;
    var found := FindByEmail(reg.next, email);
    assert found.Some? by {
      assert reg.next.users[id].email == email;
    }
  }

  /** The store after a run of login attempts with one password, one attempt per instant. */
  function LoginMany(s: Store, email: string, password: string, times: seq<Instant>, hmac: Hasher): Store
    decreases |times|
  {
    if |times| == 0 then s
    else LoginMany(Login(s, times[0], email, password, hmac).next, email, password, times[1..], hmac)
  }

  /** Wrong passwords below the threshold only count up, and the account stays where the lookup finds it. */
  lemma {:induction false} WrongPasswordsAccumulate(s: Store, email: string, wrong: string,
                                                    times: seq<Instant>, hmac: Hasher)
    requires FindByEmail(s, email).Some?
    requires var u := s.users[FindByEmail(s, email).value];
             && u.isActive
             && (forall k :: 0 <= k < |times| ==> !StateOf(u, times[k]).Locked?)
             && 0 <= u.failedLoginAttempts
             && u.failedLoginAttempts + |times| < MaxFailedAttempts
             && !VerifyPassword(wrong, u.passwordHash, u.passwordSalt, hmac)
    ensures var id := FindByEmail(s, email).value;
            var t := LoginMany(s, email, wrong, times, hmac);
            && FindByEmail(t, email) == Some(id)
            && t.users[id] == s.users[id].(failedLoginAttempts := s.users[id].failedLoginAttempts + |times|)
    decreases |times|
  {
    if |times| > 0 {
      var id := FindByEmail(s, email).value;
      var next := Login(s, times[0], email, wrong, hmac).next;
      SameEmailsSameLookup(s, next, email);
      assert next.users[id].lockoutEnd == s.users[id].lockoutEnd;
      WrongPasswordsAccumulate(next, email, wrong, times[1..], hmac);
    }
  }

  /** A wrong password on the fifth consecutive failure locks the account for five minutes. */
  lemma FifthFailureLocks(s: Store, id: int, email: string, wrong: string, now: Instant, hmac: Hasher)
    requires FindByEmail(s, email) == Some(id)
    requires var u := s.users[id];
             && u.isActive && !StateOf(u, now).Locked? && u.failedLoginAttempts == MaxFailedAttempts - 1
             && !VerifyPassword(wrong, u.passwordHash, u.passwordSalt, hmac)
    ensures var r := Login(s, now, email, wrong, hmac);
            && r.reply == LockedAfterFailures
            && FindByEmail(r.next, email) == Some(id)
            && r.next.users[id] == s.users[id].(failedLoginAttempts := 0, lockoutEnd := Some(now + LockoutSeconds))
  {
    SameEmailsSameLookup(s, Login(s, now, email, wrong, hmac).next, email);
  }

  /** While the lockout lasts every attempt is refused and the account is left as it is. */
  lemma LockedRefuses(s: Store, id: int, email: string, password: string, now: Instant, hmac: Hasher)
    requires FindByEmail(s, email) == Some(id)
    requires s.users[id].isActive && StateOf(s.users[id], now).Locked?
    ensures var r := Login(s, now, email, password, hmac);
            r.reply.AccountLocked? && r.next == s
  {
  }

  /** Once the lockout has passed, the right password logs in and clears the lockout. */
  lemma ExpiredLockoutLetsIn(s: Store, id: int, email: string, right: string, now: Instant, hmac: Hasher)
    requires FindByEmail(s, email) == Some(id)
    requires var u := s.users[id];
             && u.isActive && !StateOf(u, now).Locked?
             && VerifyPassword(right, u.passwordHash, u.passwordSalt, hmac)
    ensures var r := Login(s, now, email, right, hmac);
            && r.reply.Authenticated?
            && r.next.users[id].failedLoginAttempts == 0
            && r.next.users[id].lockoutEnd == None
  {
  }

  /**
   * Five consecutive wrong passwords lock an account that is not locked when
   * they are made, whether it never was or an earlier lockout has passed; any
   * attempt in the next five minutes is refused without touching the account,
   * even with the right password; once the lockout has passed, the right
   * password logs in again and clears the lockout.
   */
  lemma FiveFailuresLock(s: Store, email: string, right: string, wrong: string, any: string,
                         times: seq<Instant>, fifth: Instant, sixth: Instant, later: Instant, hmac: Hasher)
    requires FindByEmail(s, email).Some?
    requires var u := s.users[FindByEmail(s, email).value];
             && u.isActive && u.failedLoginAttempts == 0
             && (forall k :: 0 <= k < |times| ==> !StateOf(u, times[k]).Locked?)
             && !StateOf(u, fifth).Locked?
             && VerifyPassword(right, u.passwordHash, u.passwordSalt, hmac)
             && !VerifyPassword(wrong, u.passwordHash, u.passwordSalt, hmac)
    requires |times| == MaxFailedAttempts - 1
    requires sixth < fifth + LockoutSeconds <= later
    ensures var id := FindByEmail(s, email).value;
            var locked := Login(LoginMany(s, email, wrong, times, hmac), fifth, email, wrong, hmac);
            var refused := Login(locked.next, sixth, email, any, hmac);
            var back := Login(locked.next, later, email, right, hmac);
            && locked.reply == LockedAfterFailures
            && id in locked.next.users && id in back.next.users
            && locked.next.users[id].lockoutEnd == Some(fifth + LockoutSeconds)
            && refused.reply.AccountLocked? && refused.next == locked.next
            && back.reply.Authenticated?
            && back.next.users[id].failedLoginAttempts == 0
            && back.next.users[id].lockoutEnd == None
  {
    var id := FindByEmail(s, email).value;
    WrongPasswordsAccumulate(s, email, wrong, times, hmac);
    var four := LoginMany(s, email, wrong, times, hmac);
    FifthFailureLocks(four, id, email, wrong, fifth, hmac);
    var locked := Login(four, fifth, email, wrong, hmac).next;
    LockedRefuses(locked, id, email, any, sixth, hmac);
    ExpiredLockoutLetsIn(locked, id, email, right, later, hmac);
  }
}

=== FILE: entities.dfy ===
/**
 * The three persisted entities: a user account, an immutable snapshot of a
 * user's editable fields (a version), and an audit-log entry.
 */
module Entities {
  import opened Wrappers

  /** Opaque binary value: a password hash or a password salt. */
  type Bytes = seq<bv8>

  /** A point on the single clock of the model, counted in seconds. */
  type Instant = int

  const AdminRole: string := "Admin"
  const UserRole: string := "User"

  /** The table name every audit entry of the system carries. */
  const UserTable: string := "User"

  /** The seven fields a version snapshots and a revert restores. */
  datatype Profile = Profile(
    email: string,
    firstName: Option<string>,
    lastName: Option<string>,
    address: Option<string>,
    dateOfBirth: Option<Instant>,
    role: string,
    isActive: bool)

  datatype User = User(
    id: int,
    email: string,
    passwordHash: Bytes,
    passwordSalt: Bytes,
    failedLoginAttempts: int,
    lockoutEnd: Option<Instant>,
    role: string,
    isActive: bool,
    firstName: Option<string>,
    lastName: Option<string>,
    address: Option<string>,
    dateOfBirth: Option<Instant>)
  {
    function Fields(): Profile {
      Profile(email, firstName, lastName, address, dateOfBirth, role, isActive)
    }
  }

  /**
   * A user as the parameterless constructor leaves it: no failed attempts, no
   * lockout, the standard role, active, no profile. The email, hash and salt
   * are null there; the empty sequence stands for null.
   */
  function Blank(): User {
    User(0, "", [], [], 0, None, UserRole, true, None, None, None, None)
  }

  /** A snapshot of a user's editable fields, with who took it and when. */
  datatype UserVersion = UserVersion(
    id: int,
    userId: int,
    email: string,
    firstName: Option<string>,
    lastName: Option<string>,
    address: Option<string>,
    dateOfBirth: Option<Instant>,
    role: string,
    isActive: bool,
    changedAt: Instant,
    changedBy: string)
  {
    function Fields(): Profile {
      Profile(email, firstName, lastName, address, dateOfBirth, role, isActive)
    }
  }

  /**
   * The kind of change an audit entry records; the Action column stores
   * "REGISTER", "INSERT", "UPDATE", "DELETE" and "REVERT" respectively.
   */
  datatype Action = Registered | Inserted | Updated | Deleted | Reverted

  /**
   * The serialized payload of an audit entry, kept as the value that was
   * serialized. A version is serialized with the user it belongs to, which
   * the data context has attached to it by then.
   */
  datatype Snapshot = OfUser(user: User) | OfVersion(version: UserVersion, owner: User)

  datatype AuditLog = AuditLog(
    id: int,
    tableName: string,
    action: Action,
    changedBy: string,
    changedAt: Instant,
    data: Snapshot)
}

=== FILE: lockout.dfy ===
/**
 * The account-lockout policy: constants, an abstract view of an account's
 * lockout state, and the policy's transitions over that view.
 */
module Lockout {
  import opened Wrappers
  import opened Entities

  /** The failure that reaches this count locks the account. */
  const MaxFailedAttempts: int := 5
  const LockoutMinutes: int := 5
  const SecondsPerMinute: int := 60
  const MinutesPerHour: int := 60
  const SecondsPerHour: int := MinutesPerHour * SecondsPerMinute
  const LockoutSeconds: int := LockoutMinutes * SecondsPerMinute

  datatype LockState = Unlocked | Accumulating(failures: int) | Locked(until: Instant)

  /** The lockout state a user is in at a given instant; an expired lockout no longer counts. */
  function StateOf(u: User, now: Instant): LockState {
    if u.lockoutEnd.Some? && u.lockoutEnd.value > now then Locked(u.lockoutEnd.value)
    else if u.failedLoginAttempts == 0 then Unlocked
    else Accumulating(u.failedLoginAttempts)
  }

  datatype Attempt = CorrectPassword | WrongPassword

  /**
   * The policy on its own terms: a locked account ignores attempts; otherwise a
   * correct password unlocks, and a wrong one accumulates until the fifth
   * consecutive failure locks the account for five minutes.
   */
  function Next(st: LockState, a: Attempt, now: Instant): LockState {
    match st
    case Locked(_) => st
    case _ =>
      var failures := if st.Accumulating? then st.failures else 0;
      match a
      case CorrectPassword => Unlocked
      case WrongPassword =>
        if failures + 1 >= MaxFailedAttempts then Locked(now + LockoutSeconds)
        else Accumulating(failures + 1)
  }

  /** A freshly constructed user starts unlocked, in the standard role, active and without profile. */
  lemma BlankStartsUnlocked(now: Instant)
    ensures StateOf(Blank(), now) == Unlocked
    ensures Blank().role == UserRole && Blank().isActive
    ensures Blank().firstName == None && Blank().lastName == None
    ensures Blank().address == None && Blank().dateOfBirth == None
  {
  }

  /**
   * The minutes component of a time span of `span` seconds: whole minutes,
   * truncated toward zero, modulo an hour, carrying the span's sign.
   */
  function MinutesComponent(span: int): (m: int)
    ensures span >= 0 ==> 0 <= m < MinutesPerHour
    ensures span < 0 ==> -MinutesPerHour < m <= 0
    ensures 0 <= span < SecondsPerHour ==>
              m * SecondsPerMinute <= span < (m + 1) * SecondsPerMinute
    ensures 0 <= span <= LockoutSeconds ==> m <= LockoutMinutes
    ensures span >= 0 ==> 0 <= span - m * SecondsPerMinute - (span / SecondsPerHour) * SecondsPerHour < SecondsPerMinute
    ensures span < 0 ==> 0 <= -span + m * SecondsPerMinute - ((-span) / SecondsPerHour) * SecondsPerHour < SecondsPerMinute
  {
    if span >= 0 then
      MinutesOfTheHour(span);
      (span / SecondsPerMinute) % MinutesPerHour
    else
      MinutesOfTheHour(-span);
      -(((-span) / SecondsPerMinute) % MinutesPerHour)
  }

  /** The whole hours, the minutes of the hour and the seconds of the minute add back up to the span. */
  lemma MinutesOfTheHour(n: nat)
    ensures var m := (n / SecondsPerMinute) % MinutesPerHour;
            0 <= n - m * SecondsPerMinute - (n / SecondsPerHour) * SecondsPerHour < SecondsPerMinute
  {
    var q := n / SecondsPerMinute;
    var m := q % MinutesPerHour;
    var h := q / MinutesPerHour;
    assert n == q * SecondsPerMinute + n % SecondsPerMinute;
    assert q == h * MinutesPerHour + m;
    assert n == h * SecondsPerHour + m * SecondsPerMinute + n % SecondsPerMinute;
    assert 0 <= m * SecondsPerMinute + n % SecondsPerMinute < SecondsPerHour;
    assert n / SecondsPerHour == h;
  }
}

=== FILE: paging.dfy ===
/**
 * The paginated reads: a user's version history, five to a page, and the
 * audit log, seven to a page, each newest first.
 */
module Paging {
  import opened Entities
  import opened Storage

  const HistoryPageSize: nat := 5
  const AuditPageSize: nat := 7

  predicate SortedDesc<T>(xs: seq<T>, key: T -> int) {
    forall i, j :: 0 <= i < j < |xs| ==> key(xs[i]) >= key(xs[j])
  }

  /** Inserts before the first element that is not later, so equal keys keep their order. */
  function Insert<T(==)>(x: T, xs: seq<T>, key: T -> int): (r: seq<T>)
    requires SortedDesc(xs, key)
    ensures SortedDesc(r, key)
    ensures multiset(r) == multiset(xs) + multiset{x}
    ensures forall e :: e in r ==> e == x || e in xs
    decreases |xs|
  {
    if |xs| == 0 || key(x) >= key(xs[0]) then
      assert forall j :: 0 <= j < |xs| ==> key(x) >= key(xs[j]);
      [x] + xs
    else
      var rest := Insert(x, xs[1..], key);
      LaterHead(xs[0], rest, x, xs[1..], key);
      assert xs == [xs[0]] + xs[1..];
      [xs[0]] + rest
  }

  /** A head no earlier than everything it is put in front of keeps a sorted tail sorted. */
  lemma LaterHead<T>(head: T, rest: seq<T>, x: T, tail: seq<T>, key: T -> int)
    requires SortedDesc(rest, key)
    requires forall e :: e in rest ==> e == x || e in tail
    requires key(head) >= key(x)
    requires forall e :: e in tail ==> key(head) >= key(e)
    ensures SortedDesc([head] + rest, key)
  {
    var r := [head] + rest;
    forall i, j | 0 <= i < j < |r| ensures key(r[i]) >= key(r[j]) {
      if i == 0 {
        assert r[j] == rest[j - 1] && r[j] in rest;
      } else {
        assert r[i] == rest[i - 1] && r[j] == rest[j - 1];
      }
    }
  }

  /** A stable sort by descending key. */
  function SortDesc<T(==)>(xs: seq<T>, key: T -> int): (r: seq<T>)
    ensures SortedDesc(r, key)
    ensures multiset(r) == multiset(xs)
    decreases |xs|
  {
    if |xs| == 0 then []
    else
      assert xs == [xs[0]] + xs[1..];
      Insert(xs[0], SortDesc(xs[1..], key), key)
  }

  /** The versions that belong to one user, every occurrence kept, in their stored order. */
  function VersionsOf(vs: seq<UserVersion>, userId: int): (r: seq<UserVersion>)
    ensures forall v :: multiset(r)[v] == if v.userId == userId then multiset(vs)[v] else 0
    decreases |vs|
  {
    if |vs| == 0 then []
    else
      assert vs == [vs[0]] + vs[1..];
      if vs[0].userId == userId then [vs[0]] + VersionsOf(vs[1..], userId)
      else VersionsOf(vs[1..], userId)
  }

  /** The number of pages of `size` items that `total` items fill, the last one possibly partly. */
  function TotalPages(total: nat, size: nat): (n: nat)
    requires size > 0
    ensures n * size >= total
    ensures n > 0 ==> (n - 1) * size < total
  {
    var n := (total + size - 1) / size;
    assert n * size + (total + size - 1) % size == total + size - 1;
    n
  }

  /**
   * Skips `skip` items and takes up to `take`; a negative count skips
   * nothing, as the query operator does.
   */
  function SkipTake<T>(xs: seq<T>, skip: int, take: nat): (r: seq<T>)
    ensures var from := if skip < 0 then 0 else skip;
            && |r| == (if from >= |xs| then 0 else if |xs| - from < take then |xs| - from else take)
            && forall k :: 0 <= k < |r| ==> r[k] == xs[from + k]
  {
    var from := if skip < 0 then 0 else skip;
    if from >= |xs| then []
    else if |xs| - from < take then xs[from..]
    else xs[from..from + take]
  }

  /** The first item a page shows, counting from 0, when the arithmetic does not overflow. */
  function PageStart(page: int, size: nat): int {
    (page - 1) * size
  }

  function VersionTime(v: UserVersion): int { v.changedAt }

  function LogTime(e: AuditLog): int { e.changedAt }

  /** All of one user's versions, newest first. */
  function OrderedHistory(s: Store, userId: int): (r: seq<UserVersion>)
    ensures SortedDesc(r, VersionTime)
    ensures multiset(r) == multiset(VersionsOf(s.versions, userId))
  {
    SortDesc(VersionsOf(s.versions, userId), VersionTime)
  }

  /** The whole audit log, newest first. */
  function OrderedLogs(s: Store): (r: seq<AuditLog>)
    ensures SortedDesc(r, LogTime)
    ensures multiset(r) == multiset(s.logs)
  {
    SortDesc(s.logs, LogTime)
  }

  datatype HistoryPage = HistoryPage(
    totalCount: nat,
    currentPage: int,
    pageSize: nat,
    totalPages: nat,
    history: seq<UserVersion>)

  /** The page of a history or log that starts at `start`, with the stated bounds and order. */
  ghost predicate IsPageOf<T>(items: seq<T>, ordered: seq<T>, start: int, size: nat) {
    var from := if start < 0 then 0 else start;
    && |items| <= size
    && (from < |ordered| ==> |items| == if |ordered| - from < size then |ordered| - from else size)
    && (from >= |ordered| ==> items == [])
    && forall k :: 0 <= k < |items| ==> from + k < |ordered| && items[k] == ordered[from + k]
  }

  lemma SkipTakeIsPage<T>(xs: seq<T>, skip: int, take: nat)
    ensures IsPageOf(SkipTake(xs, skip, take), xs, skip, take)
  {
  }

  /** A page of a sorted sequence is sorted. */
  lemma PageOfSortedIsSorted<T>(items: seq<T>, ordered: seq<T>, start: int, size: nat, key: T -> int)
    requires IsPageOf(items, ordered, start, size)
    requires SortedDesc(ordered, key)
    ensures SortedDesc(items, key)
  {
    var from := if start < 0 then 0 else start;
    forall i, j | 0 <= i < j < |items| ensures key(items[i]) >= key(items[j]) {
      assert items[i] == ordered[from + i] && items[j] == ordered[from + j];
    }
  }

  /** Every item of a page is an item of what it pages. */
  lemma PageItemsBelong<T>(items: seq<T>, ordered: seq<T>, start: int, size: nat)
    requires IsPageOf(items, ordered, start, size)
    ensures forall e :: e in items ==> e in multiset(ordered)
  {
    var from := if start < 0 then 0 else start;
    forall e | e in items ensures e in multiset(ordered) {
      var k :| 0 <= k < |items| && items[k] == e;
      assert ordered[from + k] == e;
    }
  }

  /** One page of a user's version history. The page number is not checked. */
  function GetUserHistory(s: Store, userId: int, page: int): (r: HistoryPage)
    ensures r.totalCount == |VersionsOf(s.versions, userId)|
    ensures r.currentPage == page && r.pageSize == HistoryPageSize
    ensures r.totalPages * HistoryPageSize >= r.totalCount
    ensures r.totalPages > 0 ==> (r.totalPages - 1) * HistoryPageSize < r.totalCount
    ensures |r.history| <= HistoryPageSize
    ensures forall v :: v in r.history ==> v in s.versions && v.userId == userId
    ensures SortedDesc(r.history, VersionTime)
    ensures IsPageOf(r.history, OrderedHistory(s, userId), PageStart(page, HistoryPageSize), HistoryPageSize)
  {
    HistoryPageOf(s, userId, PageStart(page, HistoryPageSize), page)
  }

  /** The history page that skips `skip` versions, reported as page `page`. */
  function HistoryPageOf(s: Store, userId: int, skip: int, page: int): (r: HistoryPage)
    ensures r.totalCount == |VersionsOf(s.versions, userId)|
    ensures r.currentPage == page && r.pageSize == HistoryPageSize
    ensures r.totalPages * HistoryPageSize >= r.totalCount
    ensures r.totalPages > 0 ==> (r.totalPages - 1) * HistoryPageSize < r.totalCount
    ensures forall v :: v in r.history ==> v in s.versions && v.userId == userId
    ensures SortedDesc(r.history, VersionTime)
    ensures IsPageOf(r.history, OrderedHistory(s, userId), skip, HistoryPageSize)
  {
    var totalCount := |VersionsOf(s.versions, userId)|;
    var ordered := OrderedHistory(s, userId);
    var history := SkipTake(ordered, skip, HistoryPageSize);
    SkipTakeIsPage(ordered, skip, HistoryPageSize);
    PageOfSortedIsSorted(history, ordered, skip, HistoryPageSize, VersionTime);
    PageItemsBelong(history, ordered, skip, HistoryPageSize);
    assert forall v :: v in history ==> v in s.versions && v.userId == userId by {
      forall v | v in history ensures v in s.versions && v.userId == userId {
        assert multiset(VersionsOf(s.versions, userId))[v] > 0;
      }
    }
    HistoryPage(totalCount, page, HistoryPageSize, TotalPages(totalCount, HistoryPageSize), history)
  }

  datatype AuditPage = AuditPage(totalCount: nat, page: int, pageSize: nat, logs: seq<AuditLog>)

  datatype AuditReply = PageTooSmall | Logs(result: AuditPage)

  /** One page of the audit log; a page number below 1 is refused. */
  function GetAuditLogs(s: Store, page: int): (r: AuditReply)
    ensures r.PageTooSmall? <==> page < 1
    ensures r.Logs? ==>
      && r.result.totalCount == |s.logs|
      && r.result.page == page && r.result.pageSize == AuditPageSize
      && (forall e :: e in r.result.logs ==> e in s.logs)
      && SortedDesc(r.result.logs, LogTime)
      && IsPageOf(r.result.logs, OrderedLogs(s), PageStart(page, AuditPageSize), AuditPageSize)
  {
    if page < 1 then PageTooSmall
    else AuditLogsFrom(s, PageStart(page, AuditPageSize), page)
  }

  /** The audit page that skips `skip` entries, reported as page `page`. */
  function AuditLogsFrom(s: Store, skip: int, page: int): (r: AuditReply)
    ensures r.Logs?
    ensures r.result.totalCount == |s.logs|
    ensures r.result.page == page && r.result.pageSize == AuditPageSize
    ensures forall e :: e in r.result.logs ==> e in s.logs
    ensures SortedDesc(r.result.logs, LogTime)
    ensures IsPageOf(r.result.logs, OrderedLogs(s), skip, AuditPageSize)
  {
    var ordered := OrderedLogs(s);
    var logs := SkipTake(ordered, skip, AuditPageSize);
    SkipTakeIsPage(ordered, skip, AuditPageSize);
    PageOfSortedIsSorted(logs, ordered, skip, AuditPageSize, LogTime);
    PageItemsBelong(logs, ordered, skip, AuditPageSize);
    Logs(AuditPage(|s.logs|, page, AuditPageSize, logs))
  }

  /** Item `i` of what is paged sits on the page starting at or before it, less than a page away. */
  lemma PageHolds<T>(items: seq<T>, ordered: seq<T>, start: int, size: nat, i: int)
    requires IsPageOf(items, ordered, start, size)
    requires 0 <= start <= i < |ordered| && i - start < size
    ensures i - start < |items| && items[i - start] == ordered[i]
  {
  }

  /** Version `i` of the newest-first history appears on page i / 5 + 1, at position i % 5. */
  lemma HistoryPagesCoverAll(s: Store, userId: int, i: int)
    requires 0 <= i < |OrderedHistory(s, userId)|
    ensures var p := GetUserHistory(s, userId, i / HistoryPageSize + 1);
            i % HistoryPageSize < |p.history| && p.history[i % HistoryPageSize] == OrderedHistory(s, userId)[i]
  {
    var page := i / HistoryPageSize + 1;
    var from := PageStart(page, HistoryPageSize);
    assert from + i % HistoryPageSize == i && from >= 0;
    PageHolds(GetUserHistory(s, userId, page).history, OrderedHistory(s, userId), from, HistoryPageSize, i);
  }

  /** A history page past the last one is empty. */
  lemma HistoryPagesPastTheEndAreEmpty(s: Store, userId: int, page: int)
    requires page > GetUserHistory(s, userId, page).totalPages
    ensures GetUserHistory(s, userId, page).history == []
  {
    var r := GetUserHistory(s, userId, page);
    assert |OrderedHistory(s, userId)| == r.totalCount by {
      assert |multiset(OrderedHistory(s, userId))| == |multiset(VersionsOf(s.versions, userId))|;
    }
    assert PageStart(page, HistoryPageSize) >= r.totalPages * HistoryPageSize;
  }

  /** Entry `i` of the newest-first log appears on page i / 7 + 1, at position i % 7. */
  lemma AuditPagesCoverAll(s: Store, i: int)
    requires 0 <= i < |s.logs|
    ensures var r := GetAuditLogs(s, i / AuditPageSize + 1);
            && r.Logs?
            && i % AuditPageSize < |r.result.logs|
            && r.result.logs[i % AuditPageSize] == OrderedLogs(s)[i]
  {
    assert |OrderedLogs(s)| == |s.logs| by {
      assert |multiset(OrderedLogs(s))| == |multiset(s.logs)|;
    }
    assert PageStart(i / AuditPageSize + 1, AuditPageSize) + i % AuditPageSize == i;
  }

  /** An audit page past the last one is empty. */
  lemma AuditPagesPastTheEndAreEmpty(s: Store, page: int)
    requires page >= 1
    requires page > TotalPages(|s.logs|, AuditPageSize)
    ensures GetAuditLogs(s, page) == Logs(AuditPage(|s.logs|, page, AuditPageSize, []))
  {
    assert |OrderedLogs(s)| == |s.logs| by {
      assert |multiset(OrderedLogs(s))| == |multiset(s.logs)|;
    }
    assert PageStart(page, AuditPageSize) >= TotalPages(|s.logs|, AuditPageSize) * AuditPageSize;
  }

  const Int32Modulus: int := 0x1_0000_0000

  predicate IsInt32(x: int) {
    -0x8000_0000 <= x < 0x8000_0000
  }

  /** Two's-complement wrap-around of 32-bit integer arithmetic. */
  function Wrap32(x: int): (r: int)
    ensures IsInt32(r)
    ensures (x - r) % Int32Modulus == 0
    ensures IsInt32(x) ==> r == x
  {
    (x + 0x8000_0000) % Int32Modulus - 0x8000_0000
  }

  /** The number of items a page skips as the system computes it: `(page - 1) * size` in 32-bit arithmetic. */
  function SkipAsWritten(page: int, size: nat): (r: int)
    requires IsInt32(page)
    ensures IsInt32(r)
    ensures (PageStart(page, size) - r) % Int32Modulus == 0
    ensures IsInt32(PageStart(page, size)) ==> r == PageStart(page, size)
  {
    Wrap32((page - 1) * size)
  }

  /** The history read as the system computes it; it agrees with the intended one unless the skip overflows. */
  function GetUserHistoryAsWritten(s: Store, userId: int, page: int): (r: HistoryPage)
    requires IsInt32(page)
    ensures r.totalCount == |VersionsOf(s.versions, userId)|
    ensures r.currentPage == page && r.pageSize == HistoryPageSize
    ensures r.totalPages == TotalPages(r.totalCount, HistoryPageSize)
    ensures IsPageOf(r.history, OrderedHistory(s, userId), SkipAsWritten(page, HistoryPageSize), HistoryPageSize)
    ensures IsInt32(PageStart(page, HistoryPageSize)) ==> r == GetUserHistory(s, userId, page)
  {
    HistoryPageOf(s, userId, SkipAsWritten(page, HistoryPageSize), page)
  }

  /** The audit-log read as the system computes it; it agrees with the intended one unless the skip overflows. */
  function GetAuditLogsAsWritten(s: Store, page: int): (r: AuditReply)
    requires IsInt32(page)
    ensures r.PageTooSmall? <==> page < 1
    ensures r.Logs? ==> r.result.totalCount == |s.logs| && r.result.page == page && r.result.pageSize == AuditPageSize
    ensures r.Logs? ==> IsPageOf(r.result.logs, OrderedLogs(s), SkipAsWritten(page, AuditPageSize), AuditPageSize)
    ensures IsInt32(PageStart(page, AuditPageSize)) ==> r == GetAuditLogs(s, page)
  {
    if page < 1 then PageTooSmall
    else AuditLogsFrom(s, SkipAsWritten(page, AuditPageSize), page)
  }

  /**
   * History page 858993461 lies far past the last page, yet the 32-bit skip
   * wraps to 4, so the system shows versions 5 to 9 instead of nothing.
   */
  lemma HistorySkipWrapsAround(s: Store, userId: int)
    requires 5 <= |VersionsOf(s.versions, userId)| < 0x8000_0000
    ensures var page := 858993461;
            && GetUserHistory(s, userId, page).totalPages < page
            && GetUserHistory(s, userId, page).history == []
            && GetUserHistoryAsWritten(s, userId, page).history != []
            && GetUserHistoryAsWritten(s, userId, page).history[0] == OrderedHistory(s, userId)[4]
  {
    var page := 858993461;
    var ordered := OrderedHistory(s, userId);
    assert PageStart(page, HistoryPageSize) == 4294967300;
    assert SkipAsWritten(page, HistoryPageSize) == 4;
    assert |ordered| == |VersionsOf(s.versions, userId)| by {
      assert |multiset(ordered)| == |multiset(VersionsOf(s.versions, userId))|;
    }
    var intended := GetUserHistory(s, userId, page);
    assert intended.totalPages < page;
    HistoryPagesPastTheEndAreEmpty(s, userId, page);
    var written := GetUserHistoryAsWritten(s, userId, page).history;
    PageHolds(written, ordered, 4, HistoryPageSize, 4);
  }

  /**
   * Audit page 613566758 lies far past the last page, yet the 32-bit skip
   * wraps to 3, so the system shows entries 4 to 10 instead of nothing.
   */
  lemma AuditSkipWrapsAround(s: Store)
    requires 4 <= |s.logs| < 0x8000_0000
    ensures var page := 613566758;
            && TotalPages(|s.logs|, AuditPageSize) < page
            && GetAuditLogs(s, page).result.logs == []
            && GetAuditLogsAsWritten(s, page).result.logs != []
            && GetAuditLogsAsWritten(s, page).result.logs[0] == OrderedLogs(s)[3]
  {
    var page := 613566758;
    var ordered := OrderedLogs(s);
    assert SkipAsWritten(page, AuditPageSize) == 3;
    assert |ordered| == |s.logs| by {
      assert |multiset(ordered)| == |multiset(s.logs)|;
    }
    AuditPagesPastTheEndAreEmpty(s, page);
    PageHolds(GetAuditLogsAsWritten(s, page).result.logs, ordered, 3, AuditPageSize, 3);
  }
}

=== FILE: passwords.dfy ===
/**
 * Salted password credentials. The keyed hash (HMAC-SHA512 under the salt,
 * over the UTF-8 bytes of the password) is left uninterpreted: every operation
 * that hashes takes it as a parameter, and every fresh random key is a
 * parameter too.
 */
module Passwords {
  import opened Entities

  type Hasher = (Bytes, string) -> Bytes

  datatype Credential = Credential(hash: Bytes, salt: Bytes)

  /** The stored hash is the keyed hash of the password under the stored salt, byte for byte. */
  predicate VerifyPassword(password: string, storedHash: Bytes, storedSalt: Bytes, hmac: Hasher) {
    hmac(storedSalt, password) == storedHash
  }

  /** Hashes a password under a fresh key, which becomes the salt. */
  function CreatePasswordHash(password: string, salt: Bytes, hmac: Hasher): (c: Credential)
    ensures c.salt == salt
    ensures VerifyPassword(password, c.hash, c.salt, hmac)
  {
    Credential(hmac(salt, password), salt)
  }

  /** No two passwords share a hash under this salt. */
  ghost predicate CollisionFree(hmac: Hasher, salt: Bytes) {
    forall p, q :: hmac(salt, p) == hmac(salt, q) ==> p == q
  }

  /** Under a collision-free hash, only the password a credential was made for verifies against it. */
  lemma OnlyTheHashedPasswordVerifies(p: string, q: string, salt: Bytes, hmac: Hasher)
    requires CollisionFree(hmac, salt)
    ensures VerifyPassword(q, CreatePasswordHash(p, salt, hmac).hash, salt, hmac) <==> q == p
  {
  }
}

=== FILE: storage.dfy ===
/**
 * The in-memory store the controllers work against: the Users table keyed by
 * id, and the append-only UserVersions and AuditLogs tables.
 */
module Storage {
  import opened Wrappers
  import opened Entities
  import opened Lockout

  /**
   * `nextUserId` is the identity the Users table hands out next; identities
   * are never reused. Versions and audit entries are numbered from 1 in the
   * order they are appended.
   */
  datatype Store = Store(
    users: map<int, User>,
    versions: seq<UserVersion>,
    logs: seq<AuditLog>,
    nextUserId: int)

  /** A reply together with the store the operation leaves behind. */
  datatype Transition<+R> = Transition(reply: R, next: Store)

  function Empty(): Store {
    Store(map[], [], [], 1)
  }

  /** Every id is the key it is stored under, below the next identity, and the tables are numbered in order. */
  predicate WellFormed(s: Store) {
    && s.nextUserId >= 1
    && (forall id :: id in s.users ==> 1 <= id < s.nextUserId && s.users[id].id == id)
    && (forall i :: 0 <= i < |s.versions| ==> s.versions[i].id == i + 1)
    && (forall i :: 0 <= i < |s.logs| ==> s.logs[i].id == i + 1)
  }

  /** No two users hold the same email. */
  predicate EmailsUnique(s: Store) {
    forall a, b :: a in s.users && b in s.users && s.users[a].email == s.users[b].email ==> a == b
  }

  /** Every failure counter is in 0..4: the account is unlocked or accumulating, never past the threshold. */
  predicate CountersBounded(s: Store) {
    forall id :: id in s.users ==> 0 <= s.users[id].failedLoginAttempts < MaxFailedAttempts
  }

  lemma EmptyIsWellFormed()
    ensures WellFormed(Empty()) && EmailsUnique(Empty()) && CountersBounded(Empty())
  {
  }

  predicate EmailTaken(s: Store, email: string) {
    exists id :: id in s.users && s.users[id].email == email
  }

  /** Every non-empty set of integers has a least element. */
  lemma {:induction false} LeastExists(ids: set<int>)
    requires ids != {}
    ensures exists m :: m in ids && forall x :: x in ids ==> m <= x
    decreases |ids|
  {
    var y := PickOne(ids);
    if ids == {y} {
      assert forall x :: x in ids ==> x == y;
    } else {
      var rest := ids - {y};
      assert |rest| < |ids|;
      LeastExists(rest);
      var m :| m in rest && forall x :: x in rest ==> m <= x;
      var least := if y < m then y else m;
      assert forall x :: x in ids ==> x == y || x in rest;
      assert least in ids && forall x :: x in ids ==> least <= x;
    }
  }

  lemma PickOne(ids: set<int>) returns (y: int)
    requires ids != {}
    ensures y in ids
  {
    if forall z :: z !in ids {
      assert false;
    }
    var z :| z in ids;
    y := z;
  }

  /**
   * The user a lookup by email finds. The table's order is not fixed by the
   * system; the model takes the holder with the lowest id.
   */
  function FindByEmail(s: Store, email: string): (r: Option<int>)
    ensures r.None? <==> !EmailTaken(s, email)
    ensures r.Some? ==> r.value in s.users && s.users[r.value].email == email
    ensures r.Some? ==> forall id :: id in s.users && s.users[id].email == email ==> r.value <= id
  {
    var ids := set id | id in s.users && s.users[id].email == email;
    if ids == {} then
      assert forall id :: id in s.users && s.users[id].email == email ==> id in ids;
      None
    else
      LeastExists(ids);
      var m :| m in ids && forall x :: x in ids ==> m <= x;
      assert forall id :: id in s.users && s.users[id].email == email ==> id in ids;
      Some(m)
  }

  /** Two stores whose users carry the same emails under the same ids answer every email lookup alike. */
  lemma SameEmailsSameLookup(s: Store, t: Store, email: string)
    requires s.users.Keys == t.users.Keys
    requires forall id :: id in s.users ==> s.users[id].email == t.users[id].email
    ensures FindByEmail(s, email) == FindByEmail(t, email)
  {
    var a, b := FindByEmail(s, email), FindByEmail(t, email);
    if a.Some? && b.Some? {
      assert a.value <= b.value && b.value <= a.value;
    }
  }

  /** The first version of the given user that carries the given id. */
  function FindVersion(vs: seq<UserVersion>, userId: int, versionId: int): (r: Option<UserVersion>)
    ensures r.Some? ==> r.value in vs && r.value.userId == userId && r.value.id == versionId
    ensures r.None? ==> forall v :: v in vs ==> !(v.userId == userId && v.id == versionId)
  {
    if |vs| == 0 then None
    else if vs[0].userId == userId && vs[0].id == versionId then Some(vs[0])
    else FindVersion(vs[1..], userId, versionId)
  }

  /** In a store whose versions are numbered in order, a version is found by its own user and id. */
  lemma {:induction false} FindNumberedVersion(vs: seq<UserVersion>, k: int)
    requires forall i :: 0 <= i < |vs| ==> vs[i].id == i + 1
    requires 0 <= k < |vs|
    ensures FindVersion(vs, vs[k].userId, vs[k].id) == Some(vs[k])
  {
    FindNumberedFrom(vs, 0, k);
  }

  lemma {:induction false} FindNumberedFrom(vs: seq<UserVersion>, start: nat, k: int)
    requires forall i :: 0 <= i < |vs| ==> vs[i].id == start + i + 1
    requires 0 <= k < |vs|
    ensures FindVersion(vs, vs[k].userId, vs[k].id) == Some(vs[k])
  {
    if k > 0 {
      assert vs[0].id != vs[k].id;
      assert vs[1..][k - 1] == vs[k];
      FindNumberedFrom(vs[1..], start + 1, k - 1);
    }
  }

  predicate AppendsOne<T(==)>(before: seq<T>, after: seq<T>) {
    |after| == |before| + 1 && after[..|before|] == before
  }

  function Last<T>(xs: seq<T>): T
    requires |xs| > 0
  {
    xs[|xs| - 1]
  }

  /** Exactly one audit entry is appended, carrying the next id and the given contents. */
  predicate Logged(s: Store, t: Store, action: Action, actor: string, now: Instant, data: Snapshot) {
    && AppendsOne(s.logs, t.logs)
    && Last(t.logs) == AuditLog(|s.logs| + 1, UserTable, action, actor, now, data)
  }

  /** Exactly one version is appended, carrying the next id, the owner's id and the given fields. */
  predicate Versioned(s: Store, t: Store, userId: int, fields: Profile, actor: string, now: Instant) {
    && AppendsOne(s.versions, t.versions)
    && var v := Last(t.versions);
    && v.id == |s.versions| + 1
    && v.userId == userId
    && v.Fields() == fields
    && v.changedAt == now
    && v.changedBy == actor
  }

  function AppendLog(s: Store, action: Action, actor: string, now: Instant, data: Snapshot): (t: Store)
    ensures Logged(s, t, action, actor, now, data)
    ensures t.users == s.users && t.versions == s.versions && t.nextUserId == s.nextUserId
  {
    s.(logs := s.logs + [AuditLog(|s.logs| + 1, UserTable, action, actor, now, data)])
  }

  /** Appends a version, giving it the next id. */
  function AppendVersion(s: Store, v: UserVersion): (t: Store)
    ensures AppendsOne(s.versions, t.versions)
    ensures Last(t.versions) == v.(id := |s.versions| + 1)
    ensures t.users == s.users && t.logs == s.logs && t.nextUserId == s.nextUserId
  {
    s.(versions := s.versions + [v.(id := |s.versions| + 1)])
  }

  /**
   * The change recorder every editing operation calls before it alters a
   * user: a version of the user's fields as they are, and an UPDATE-style
   * audit entry whose payload is the user as it is.
   */
  function RecordBeforeChange(s: Store, userId: int, actor: string, now: Instant, action: Action): (t: Store)
    requires WellFormed(s) && userId in s.users
    ensures Versioned(s, t, userId, s.users[userId].Fields(), actor, now)
    ensures Logged(s, t, action, actor, now, OfUser(s.users[userId]))
    ensures t.users == s.users && t.nextUserId == s.nextUserId
  {
    var u := s.users[userId];
    var previous := UserVersion(0, u.id, u.email, u.firstName, u.lastName, u.address,
                                u.dateOfBirth, u.role, u.isActive, now, actor);
    AppendLog(AppendVersion(s, previous), action, actor, now, OfUser(u))
  }
}

=== FILE: users.dfy ===
/**
 * The administrative and self-service edits of user accounts. Every edit that
 * changes a user's fields first records a version of the fields as they were
 * and an audit entry; a revert restores a recorded version and is itself
 * recorded.
 */
module Users {
  import opened Wrappers
  import opened Entities
  import opened Passwords
  import opened Lockout
  import opened Storage

  /** Replies, by the status the system answers with. */
  datatype Reply = Created(id: int) | Ok | NoContent | NotFound | EmailExists | WrongCurrentPassword

  /** The request body of the administrative create and update. */
  datatype UserDto = UserDto(email: string, password: Option<string>, role: string, isActive: bool)

  /** The request body of a profile update. */
  datatype ProfileDto = ProfileDto(
    email: string,
    firstName: Option<string>,
    lastName: Option<string>,
    address: Option<string>,
    dateOfBirth: Option<Instant>)

  /** The characters the platform classifies as white space. */
  predicate IsWhiteSpace(c: char) {
    || c == ' ' || '\t' <= c <= '\r' || c == '\U{85}' || c == '\U{A0}' || c == '\U{1680}'
    || '\U{2000}' <= c <= '\U{200A}' || c == '\U{2028}' || c == '\U{2029}' || c == '\U{202F}'
    || c == '\U{205F}' || c == '\U{3000}'
  }

  predicate IsNullOrWhiteSpace(s: Option<string>) {
    s.None? || forall i :: 0 <= i < |s.value| ==> IsWhiteSpace(s.value[i])
  }

  predicate IsNullOrEmpty(s: Option<string>) {
    s.None? || |s.value| == 0
  }

  /** The only users that differ between the two stores are at `id`, which both hold. */
  predicate OnlyUserChanged(s: Store, t: Store, id: int) {
    && id in s.users && id in t.users
    && t.users.Keys == s.users.Keys
    && forall other :: other in s.users && other != id ==> t.users[other] == s.users[other]
  }

  /** The user keeps its identity, credential and lockout state. */
  predicate SameAccount(u: User, u': User) {
    && u'.id == u.id
    && u'.passwordHash == u.passwordHash && u'.passwordSalt == u.passwordSalt
    && u'.failedLoginAttempts == u.failedLoginAttempts && u'.lockoutEnd == u.lockoutEnd
  }

  /**
   * Creates an account on an administrator's behalf. The account is active
   * whatever the request says, and no version is recorded. A request for a
   * free email must carry a password: the system hashes it without a null
   * check.
   */
  function CreateUser(s: Store, now: Instant, actor: string, dto: UserDto, salt: Bytes, hmac: Hasher)
    : (r: Transition<Reply>)
    requires WellFormed(s)
    requires dto.password.Some? || EmailTaken(s, dto.email)
    ensures r.reply == EmailExists <==> EmailTaken(s, dto.email)
    ensures r.reply == EmailExists ==> r.next == s
    ensures r.reply != EmailExists ==>
      && r.reply == Created(s.nextUserId)
      && var id := s.nextUserId;
      && id !in s.users
      && r.next.users.Keys == s.users.Keys + {id}
      && (forall other :: other in s.users ==> r.next.users[other] == s.users[other])
      && var u := r.next.users[id];
      && r.next.nextUserId == id + 1
      && u.id == id && u.email == dto.email && u.role == dto.role && u.isActive
      && u.failedLoginAttempts == 0 && u.lockoutEnd == None
      && StateOf(u, now) == Unlocked
      && u.passwordSalt == salt
      && VerifyPassword(dto.password.value, u.passwordHash, u.passwordSalt, hmac)
      && r.next.versions == s.versions
      && Logged(s, r.next, Inserted, actor, now, OfUser(u.(id := 0)))
    ensures WellFormed(r.next)
    ensures EmailsUnique(s) ==> EmailsUnique(r.next)
    ensures CountersBounded(s) ==> CountersBounded(r.next)
  {
    if EmailTaken(s, dto.email) then Transition(EmailExists, s)
    else
      var user := Blank().(email := dto.email, passwordHash := hmac(salt, dto.password.value),
                           passwordSalt := salt, role := dto.role, isActive := true);
      var logged := AppendLog(s, Inserted, actor, now, OfUser(user));
      var id := s.nextUserId;
      Transition(Created(id), logged.(users := logged.users[id := user.(id := id)], nextUserId := id + 1))
  }

  /** Whether an administrative update would change email, role or active flag. */
  predicate AccountChanges(u: User, dto: UserDto) {
    u.email != dto.email || u.role != dto.role || u.isActive != dto.isActive
  }

  /** The update finds the user, changes one of the three fields, and does not take another user's email. */
  predicate UpdateApplies(s: Store, id: int, dto: UserDto) {
    && id in s.users
    && AccountChanges(s.users[id], dto)
    && !(s.users[id].email != dto.email && EmailTaken(s, dto.email))
  }

  /**
   * Edits email, role and active flag on an administrator's behalf, and sets
   * a new password when one is given, but only when one of the three fields
   * changes.
   */
  function UpdateUser(s: Store, now: Instant, actor: string, id: int, dto: UserDto, salt: Bytes, hmac: Hasher)
    : (r: Transition<Reply>)
    requires WellFormed(s)
    ensures r.reply == NotFound <==> id !in s.users
    ensures r.reply in {NotFound, NoContent, EmailExists}
    ensures r.reply == EmailExists <==>
              id in s.users && AccountChanges(s.users[id], dto)
              && s.users[id].email != dto.email && EmailTaken(s, dto.email)
    ensures !UpdateApplies(s, id, dto) ==> r.next == s
    ensures UpdateApplies(s, id, dto) ==>
      && r.reply == NoContent
      && OnlyUserChanged(s, r.next, id)
      && r.next.nextUserId == s.nextUserId
      && var u := s.users[id];
      && var u' := r.next.users[id];
      && Versioned(s, r.next, id, u.Fields(), actor, now)
      && Logged(s, r.next, Updated, actor, now, OfUser(u))
      && u'.Fields() == u.Fields().(email := dto.email, role := dto.role, isActive := dto.isActive)
      && u'.id == u.id && u'.failedLoginAttempts == u.failedLoginAttempts && u'.lockoutEnd == u.lockoutEnd
      && (IsNullOrWhiteSpace(dto.password) ==>
            u'.passwordHash == u.passwordHash && u'.passwordSalt == u.passwordSalt)
      && (!IsNullOrWhiteSpace(dto.password) ==>
            u'.passwordSalt == salt && VerifyPassword(dto.password.value, u'.passwordHash, u'.passwordSalt, hmac))
  {
    if id !in s.users then Transition(NotFound, s)
    else
      var user := s.users[id];
      if !AccountChanges(user, dto) then Transition(NoContent, s)
      else if user.email != dto.email && EmailTaken(s, dto.email) then Transition(EmailExists, s)
      else
        var recorded := RecordBeforeChange(s, id, actor, now, Updated);
        var edited := user.(email := dto.email, role := dto.role, isActive := dto.isActive);
        var final :=
          if !IsNullOrWhiteSpace(dto.password) then
            var credential := CreatePasswordHash(dto.password.value, salt, hmac);
            edited.(passwordSalt := credential.salt, passwordHash := credential.hash)
          else edited;
        Transition(NoContent, recorded.(users := recorded.users[id := final]))
  }

  /** An administrative update keeps the store well formed, emails unique and counters bounded. */
  lemma UpdateUserKeepsInvariants(s: Store, now: Instant, actor: string, id: int, dto: UserDto,
                                  salt: Bytes, hmac: Hasher)
    requires WellFormed(s)
    ensures var r := UpdateUser(s, now, actor, id, dto, salt, hmac);
            && WellFormed(r.next)
            && (EmailsUnique(s) ==> EmailsUnique(r.next))
            && (CountersBounded(s) ==> CountersBounded(r.next))
  {
  }

  /** Deletes an account; its versions stay, and the entry's payload is the account as it was. */
  function DeleteUser(s: Store, now: Instant, actor: string, id: int): (r: Transition<Reply>)
    requires WellFormed(s)
    ensures r.reply == NotFound <==> id !in s.users
    ensures r.reply == NotFound ==> r.next == s
    ensures r.reply != NotFound ==>
      && r.reply == NoContent
      && r.next.users == s.users - {id}
      && r.next.nextUserId == s.nextUserId
      && r.next.versions == s.versions
      && Logged(s, r.next, Deleted, actor, now, OfUser(s.users[id]))
    ensures WellFormed(r.next)
    ensures EmailsUnique(s) ==> EmailsUnique(r.next)
    ensures CountersBounded(s) ==> CountersBounded(r.next)
  {
    if id !in s.users then Transition(NotFound, s)
    else
      var logged := AppendLog(s, Deleted, actor, now, OfUser(s.users[id]));
      Transition(NoContent, logged.(users := logged.users - {id}))
  }

  /**
   * Restores a recorded version of a user. The new version copies the
   * restored one (not the fields the user had just before), the entry's
   * payload is the restored version together with its user as it was before
   * the revert, and no email check is made.
   */
  function RevertUser(s: Store, now: Instant, actor: string, userId: int, versionId: int)
    : (r: Transition<Reply>)
    requires WellFormed(s)
    ensures r.reply in {Ok, NotFound}
    ensures r.reply == NotFound <==> userId !in s.users || FindVersion(s.versions, userId, versionId).None?
    ensures r.reply == NotFound ==> r.next == s
    ensures r.reply == Ok ==>
      && var v := FindVersion(s.versions, userId, versionId).value;
      && v in s.versions && v.userId == userId && v.id == versionId
      && OnlyUserChanged(s, r.next, userId)
      && r.next.nextUserId == s.nextUserId
      && r.next.users[userId].Fields() == v.Fields()
      && SameAccount(s.users[userId], r.next.users[userId])
      && Versioned(s, r.next, userId, v.Fields(), actor, now)
      && Logged(s, r.next, Reverted, actor, now, OfVersion(v, s.users[userId]))
    ensures WellFormed(r.next)
    ensures CountersBounded(s) ==> CountersBounded(r.next)
  {
    if userId !in s.users then Transition(NotFound, s)
    else
      match FindVersion(s.versions, userId, versionId)
      case None => Transition(NotFound, s)
      case Some(version) =>
        var user := s.users[userId];
        var copy := UserVersion(0, version.userId, version.email, version.firstName, version.lastName,
                                version.address, version.dateOfBirth, version.role, version.isActive,
                                now, actor);
        var logged := AppendLog(AppendVersion(s, copy), Reverted, actor, now, OfVersion(version, user));
        var restored := user.(email := version.email, firstName := version.firstName,
                              lastName := version.lastName, address := version.address,
                              role := version.role, isActive := version.isActive,
                              dateOfBirth := version.dateOfBirth);
        Transition(Ok, logged.(users := logged.users[userId := restored]))
  }

  /** Whether a profile update would change any of the five profile fields. */
  predicate ProfileChanges(u: User, dto: ProfileDto) {
    || u.email != dto.email || u.firstName != dto.firstName || u.lastName != dto.lastName
    || u.address != dto.address || u.dateOfBirth != dto.dateOfBirth
  }

  /**
   * A user edits their own email, names, address and birth date. The user
   * must exist: the system reads its fields before checking for it.
   */
  function UpdateProfile(s: Store, now: Instant, actor: string, userId: int, dto: ProfileDto)
    : (r: Transition<Reply>)
    requires WellFormed(s)
    requires userId in s.users
    ensures r.reply in {NoContent, EmailExists, Ok}
    ensures !ProfileChanges(s.users[userId], dto) <==> r.reply == NoContent
    ensures r.reply == EmailExists <==>
              ProfileChanges(s.users[userId], dto)
              && s.users[userId].email != dto.email && EmailTaken(s, dto.email)
    ensures r.reply != Ok ==> r.next == s
    ensures r.reply == Ok ==>
      && OnlyUserChanged(s, r.next, userId)
      && r.next.nextUserId == s.nextUserId
      && var u := s.users[userId];
      && var u' := r.next.users[userId];
      && Versioned(s, r.next, userId, u.Fields(), actor, now)
      && Logged(s, r.next, Updated, actor, now, OfUser(u))
      && u'.Fields() == Profile(dto.email, dto.firstName, dto.lastName, dto.address, dto.dateOfBirth,
                                u.role, u.isActive)
      && SameAccount(u, u')
    ensures WellFormed(r.next)
    ensures EmailsUnique(s) ==> EmailsUnique(r.next)
    ensures CountersBounded(s) ==> CountersBounded(r.next)
  {
    var user := s.users[userId];
    if !ProfileChanges(user, dto) then Transition(NoContent, s)
    else if user.email != dto.email && EmailTaken(s, dto.email) then Transition(EmailExists, s)
    else
      var recorded := RecordBeforeChange(s, userId, actor, now, Updated);
      var edited := user.(email := dto.email, firstName := dto.firstName, lastName := dto.lastName,
                          address := dto.address, dateOfBirth := dto.dateOfBirth);
      Transition(Ok, recorded.(users := recorded.users[userId := edited]))
  }

  /**
   * A user replaces their password. Unless both passwords are given nothing
   * changes, yet the reply is still a success; no version or entry is recorded.
   */
  function ChangePassword(s: Store, userId: int, current: Option<string>, newPassword: Option<string>,
                          salt: Bytes, hmac: Hasher): (r: Transition<Reply>)
    ensures r.reply in {NotFound, WrongCurrentPassword, Ok}
    ensures r.reply == NotFound <==> userId !in s.users
    ensures r.reply == WrongCurrentPassword <==>
              userId in s.users && !IsNullOrEmpty(current) && !IsNullOrEmpty(newPassword)
              && !VerifyPassword(current.value, s.users[userId].passwordHash, s.users[userId].passwordSalt, hmac)
    ensures r.next.versions == s.versions && r.next.logs == s.logs && r.next.nextUserId == s.nextUserId
    ensures r.reply != Ok || IsNullOrEmpty(current) || IsNullOrEmpty(newPassword) ==> r.next == s
    ensures r.reply == Ok && !IsNullOrEmpty(current) && !IsNullOrEmpty(newPassword) ==>
      && OnlyUserChanged(s, r.next, userId)
      && var u := s.users[userId];
      && var u' := r.next.users[userId];
      && u' == u.(passwordHash := u'.passwordHash, passwordSalt := u'.passwordSalt)
      && u'.passwordSalt == salt
      && VerifyPassword(newPassword.value, u'.passwordHash, u'.passwordSalt, hmac)
    ensures WellFormed(s) ==> WellFormed(r.next)
    ensures EmailsUnique(s) ==> EmailsUnique(r.next)
    ensures CountersBounded(s) ==> CountersBounded(r.next)
  {
    if userId !in s.users then Transition(NotFound, s)
    else
      var user := s.users[userId];
      if !IsNullOrEmpty(current) && !IsNullOrEmpty(newPassword) then
        if !VerifyPassword(current.value, user.passwordHash, user.passwordSalt, hmac) then
          Transition(WrongCurrentPassword, s)
        else
          var credential := CreatePasswordHash(newPassword.value, salt, hmac);
          var changed := user.(passwordSalt := credential.salt, passwordHash := credential.hash);
          Transition(Ok, s.(users := s.users[userId := changed]))
      else Transition(Ok, s)
  }

  /** Reverting to the latest version restores its fields onto its user and nothing else. */
  lemma RevertToLatest(t: Store, userId: int, later: Instant, admin: string)
    requires WellFormed(t) && userId in t.users
    requires |t.versions| > 0 && Last(t.versions).userId == userId
    ensures var r := RevertUser(t, later, admin, userId, |t.versions|);
            && r.reply == Ok
            && OnlyUserChanged(t, r.next, userId)
            && r.next.users[userId].Fields() == Last(t.versions).Fields()
            && SameAccount(t.users[userId], r.next.users[userId])
  {
    FindNumberedVersion(t.versions, |t.versions| - 1);
  }

  /** Two users that agree on their fields and on their account data are the same user. */
  lemma SameFieldsSameUser(u: User, u': User)
    requires u'.Fields() == u.Fields() && SameAccount(u, u')
    ensures u' == u
  {
  }

  /**
   * Reverting to the version an administrative update recorded gives the user
   * back the fields it had before the update; when the update set no new
   * password, the user is exactly as it was.
   */
  lemma UpdateThenRevertRestores(s: Store, now: Instant, actor: string, id: int, dto: UserDto,
                                 salt: Bytes, hmac: Hasher, later: Instant, admin: string)
    requires WellFormed(s)
    requires UpdateApplies(s, id, dto)
    ensures var updated := UpdateUser(s, now, actor, id, dto, salt, hmac).next;
            var reverted := RevertUser(updated, later, admin, id, |s.versions| + 1);
            && reverted.reply == Ok
            && id in reverted.next.users
            && reverted.next.users[id].Fields() == s.users[id].Fields()
            && (IsNullOrWhiteSpace(dto.password) ==> reverted.next.users[id] == s.users[id])
  {
    var updated := UpdateUser(s, now, actor, id, dto, salt, hmac).next;
    UpdateUserKeepsInvariants(s, now, actor, id, dto, salt, hmac);
    RevertToLatest(updated, id, later, admin);
    if IsNullOrWhiteSpace(dto.password) {
      var reverted := RevertUser(updated, later, admin, id, |s.versions| + 1).next;
      SameFieldsSameUser(s.users[id], reverted.users[id]);
    }
  }

  /** Reverting to the version a profile update recorded gives the user back exactly as it was. */
  lemma ProfileUpdateThenRevertRestores(s: Store, now: Instant, actor: string, userId: int, dto: ProfileDto,
                                        later: Instant, admin: string)
    requires WellFormed(s)
    requires userId in s.users
    requires ProfileChanges(s.users[userId], dto)
    requires !(s.users[userId].email != dto.email && EmailTaken(s, dto.email))
    ensures var updated := UpdateProfile(s, now, actor, userId, dto).next;
            var reverted := RevertUser(updated, later, admin, userId, |s.versions| + 1);
            && reverted.reply == Ok
            && reverted.next.users == s.users
  {
    var updated := UpdateProfile(s, now, actor, userId, dto);
    assert updated.reply == Ok;
    var mid := updated.next;
    assert OnlyUserChanged(s, mid, userId) && SameAccount(s.users[userId], mid.users[userId]);
    assert |mid.versions| == |s.versions| + 1 && Last(mid.versions).Fields() == s.users[userId].Fields();
    RevertToLatest(mid, userId, later, admin);
    var reverted := RevertUser(mid, later, admin, userId, |s.versions| + 1).next;
    SameFieldsSameUser(s.users[userId], reverted.users[userId]);
    OneUserRestored(s, mid, reverted, userId);
  }

  /** Changing one user and then changing it back leaves every user as it was. */
  lemma OneUserRestored(s: Store, mid: Store, t: Store, id: int)
    requires OnlyUserChanged(s, mid, id) && OnlyUserChanged(mid, t, id)
    requires t.users[id] == s.users[id]
    ensures t.users == s.users
  {
    assert t.users.Keys == s.users.Keys;
    forall other | other in s.users ensures t.users[other] == s.users[other] {
      if other != id {
        assert t.users[other] == mid.users[other];
      }
    }
  }

  /**
   * A revert does not check emails: restoring an old email that another user
   * has taken since leaves two users with one email.
   */
  lemma RevertCanDuplicateEmail()
    ensures exists s: Store, now, actor, userId, versionId ::
              && WellFormed(s) && EmailsUnique(s)
              && var r := RevertUser(s, now, actor, userId, versionId);
              && r.reply == Ok && !EmailsUnique(r.next)
  {
    var a := Blank().(id := 1, email := "a2@x.com");
    var b := Blank().(id := 2, email := "a@x.com");
    var earlier := UserVersion(1, 1, "a@x.com", None, None, None, None, UserRole, true, 0, "admin@x.com");
    var s := Store(map[1 := a, 2 := b], [earlier], [], 3);
    var r := RevertUser(s, 1, "admin@x.com", 1, 1);
    assert r.next.users[1].email == r.next.users[2].email;
  }
}

=== FILE: wrappers.dfy ===
/** Optional values, standing for the nullable references and `Nullable<T>` fields of the system. */
module Wrappers {

  datatype Option<+T> = None | Some(value: T)
}
